=== FILE: README.md ===
# memc_load: a Dafny model of the per-file loader

`homework/memc_load_old.py` reads gzip-compressed, tab-separated logs of
installed applications and writes one protobuf record per line to the
memcache instance responsible for the line's device type. This project models
the pure decision logic of that loader and proves what it promises:

- `parse_appsinstalled`: strip the line, split it on tabs, reject short lines
  and empty device type or id, raise on more than five fields, coerce the
  comma-separated application ids strictly or, failing that, leniently, and
  keep the coordinates as text unless both convert to floats;
- `insert_appsinstalled`: the `dev_type:dev_id` key, dry-run success, and
  the mapping of any exception inside the `try` to `False`;
- `process_file`: blank lines skipped, every other line counted once as
  processed or as an error, routing through the `device_memc` map that
  `main` builds, the zero-processed short cut, the error-rate test against
  `NORMAL_ERR_RATE`, and the rename marker;
- `dot_rename`: the dot-prefixed target path in the same directory.

Modules, one per file:

| file | module | what it holds |
|---|---|---|
| base.dfy | `Base` | `Option` |
| pystr.dfy | `PyStr` | `str.isspace`, `str.strip()`, `str.split(sep)` and `sep.join` |
| pyint.dfy | `PyInt` | `int(text)` in base 10, `str.isdigit()`, `str(n)` |
| paths.dfy | `Paths` | POSIX `os.path.split`, `os.path.join`, `dot_rename` |
| parser.dfy | `Parser` | `AppsInstalled` as `Record`, `parse_appsinstalled` |
| writer.dfy | `Writer` | the key and the outcome of `insert_appsinstalled` |
| loader.dfy | `Loader` | routing, per-line verdicts, `process_file` |

The file is a `seq<string>` of decompressed lines. Everything `process_file`
consults besides its lines is an `Env`: the routing map, the dry-run flag,
a predicate saying which texts `float()` accepts, and a `Store` with two
oracles. `packs(rec)` says whether building the protobuf payload succeeds.
`setCompletes(addr, key)` says whether creating the client and calling `set`
completes without raising. Each line gets a `Verdict`: `Blank`, `Malformed`,
`UnknownDevice`, `WriteFailed`, `Stored`, or `Crash`. `Crash` is an exception
that escapes `process_file`. `ProcessFile` is a fold over these verdicts.
`LoadFile` is the source's loop with its two counters and early exit,
proved equal to `ProcessFile`. It does the rate test in integers,
`100 * errors < processed`, which `RateBelowInIntegers` proves equivalent to
the source's `errors / processed < NORMAL_ERR_RATE`.

Three behaviours of the code are easy to misread; the model follows the code
as written:

- Coordinates that fail to convert are not replaced by 0.0. The tuple
  assignment at line 65 leaves both `lat` and `lon` as their original
  strings when either conversion fails.
- A line with more than five fields is not rejected. The five-way unpack at
  line 56 raises `ValueError`, which escapes `process_file`.
- Building the payload (lines 32-37) happens before the `try`. A failure
  there is not turned into `False`; it escapes `process_file`, so the file's
  counters are lost and the file is not renamed.

## Model

| member | source | states |
|---|---|---|
| PyStr.Strip | homework/memc_load_old.py:53 | `strip()` returns the infix left after the leading whitespace; only whitespace follows it, and it neither starts nor ends with whitespace |
| PyStr.StripPadded | homework/memc_load_old.py:76 | any amount of surrounding whitespace around a trimmed text is exactly what `strip()` removes |
| PyStr.StripIdempotent | homework/memc_load_old.py:76 | stripping again inside the parser (line 53) changes nothing after the loop has stripped (line 76) |
| PyStr.Split | homework/memc_load_old.py:53 | `split('\t')` yields one more piece than there are tabs, no piece holds a tab, and joining the pieces with tabs gives back the text |
| PyStr.SplitJoin | homework/memc_load_old.py:53 | round trip: splitting the tab-join of tab-free fields gives back exactly those fields |
| PyStr.StripDropsTrailing | homework/memc_load_old.py:53 | a trailing tab is whitespace, so `strip()` loses at least one tab |
| PyInt.ParseInt | homework/memc_load_old.py:60 | an accepted text ends in a digit, and one that starts with a digit has a non-negative value |
| PyInt.ParseIntAccepts | homework/memc_load_old.py:60-61 | `int()` accepts exactly an optional sign followed by digits with single underscores between digits; everything else is the `ValueError` |
| PyInt.ParseIntPlus | homework/memc_load_old.py:60 | a leading '+' before an unsigned text changes neither acceptance nor value |
| PyInt.ParseIntMinus | homework/memc_load_old.py:60 | a leading '-' before an unsigned text keeps acceptance and negates the value |
| PyInt.ParseIntUnderscore | homework/memc_load_old.py:60 | an underscore between two digit runs is ignored: `int("1_000") == int("1000")` |
| PyInt.ParseDigits | homework/memc_load_old.py:62 | every `isdigit()` text is accepted by `int()` with its decimal value |
| PyInt.ParseDecimalString | homework/memc_load_old.py:60 | round trip: `int(str(n)) == n` and `int("-" + str(n)) == -n` |
| Parser.StrictApps | homework/memc_load_old.py:60 | the strict list comprehension succeeds exactly when every stripped entry is an integer, and then holds each entry's value in input order |
| Parser.DigitApps | homework/memc_load_old.py:62 | the lenient comprehension keeps at most one non-negative value per entry, and one per entry when all entries are digits |
| Parser.ParseApps | homework/memc_load_old.py:59-63 | the `apps` field never rejects; when every entry is an integer it is the entries' values in order |
| Parser.DigitAppsSingle | homework/memc_load_old.py:62 | on one entry, the `isdigit()` filter keeps its decimal value when the entry is non-empty digits only, and nothing otherwise |
| Parser.ParseAppsLenient | homework/memc_load_old.py:59-62 | one stripped entry that `int()` refuses makes the whole field the lenient filter's result |
| Parser.DigitAppsConcat | homework/memc_load_old.py:62 | the lenient path is a filter: it distributes over concatenation of entry lists |
| Parser.DigitAppsAgree | homework/memc_load_old.py:59-62 | when every entry is digits only, the lenient path gives what the strict path gives |
| Parser.ParseAppsText | homework/memc_load_old.py:59-60 | round trip: decimal ids joined with commas parse back to the ids, for every list including the empty one (the single empty entry is refused by `int()` and dropped by the lenient path) |
| Parser.LenientApps | homework/memc_load_old.py:59-62 | one entry `int()` refuses sends the field down the lenient path: the digit entries around it survive in order and the refused entry is dropped |
| Parser.LenientAppsExample | homework/memc_load_old.py:59-62 | the field "1,x,3" gives [1, 3] |
| Parser.LenientLineExample | homework/memc_load_old.py:52-68 | the whole line "idfa\tabc123\t55.55\t42.42\t1,x,3" is kept: it parses to its device type, device id and coordinates with apps [1, 3] |
| Parser.ParseCoords | homework/memc_load_old.py:64-67 | both coordinates convert exactly when both texts are floats; either way each keeps the text it came from |
| Parser.ParseLine | homework/memc_load_old.py:52-68 | after `strip()`: more than four tabs raise, fewer than four or an empty device id reject, and a parsed record has a non-empty, tab-free device type and device id |
| Parser.ParseFields | homework/memc_load_old.py:52-68 | for tab-free fields with a non-empty device id, and a device type and apps text that `strip()` leaves alone, the parsed record holds the line's own fields: device type, device id, the coordinates as `float()` leaves them, and the apps field coerced by whichever path applies |
| Parser.ParseFormatted | homework/memc_load_old.py:52-68 | round trip: a record with tab-free fields, a non-empty device type that does not start with whitespace, a non-empty device id and a non-empty apps list, written as five tab-separated fields, parses back to that record (an empty apps list is excluded: the line would end in a tab, the case `Parser.TrailingTabRejected` covers) |
| Parser.TrailingTabRejected | homework/memc_load_old.py:53-55 | a line with four tabs whose apps field is empty ends in a tab, loses it to `strip()`, and is rejected |
| Parser.EmptyDeviceIdRejected | homework/memc_load_old.py:53-58 | a line whose device id is empty between two tabs is rejected, whatever tab-free text the other four fields hold, including whitespace that `strip()` removes |
| Parser.ValidLineExample | homework/test_memc_load.py:7-15 | the unit test's valid line parses to device type "idfa", its device id, both coordinates converted (given that `float()` accepts them), and apps [1423, 43, 567] |
| Parser.EmptyDeviceIdExample | homework/test_memc_load.py:17-20 | the unit test's line with an empty device id is rejected |
| Writer.Key | homework/memc_load_old.py:35 | the key is the device type, then one colon, then the device id |
| Writer.KeyInjective | homework/memc_load_old.py:35 | two records whose device types hold no colon share a key only if they share device type and device id |
| Writer.KeyCollision | homework/memc_load_old.py:35 | a colon inside a device type lets two different records share a key |
| Writer.Insert | homework/memc_load_old.py:30-49 | a payload that cannot be built raises to the caller; otherwise the result is `True` exactly when in dry-run or when client creation and `set` complete, whatever `set` returns |
| Writer.DryRunIgnoresNetwork | homework/memc_load_old.py:38-40 | in dry-run neither the address nor the client matters, and a buildable payload always succeeds |
| Paths.PathSplitParts | homework/memc_load_old.py:26 | `os.path.split` cuts the path into head, a run of slashes and a tail without '/'; the head keeps a trailing '/' only when it is all slashes, and then it is the whole text before the tail, so the run is empty when the head is empty or all slashes |
| Paths.PathJoinSplit | homework/memc_load_old.py:27 | round trip: `os.path.join` of a split head and a name without '/', split again, gives back that head and name |
| Paths.DotRename | homework/memc_load_old.py:25-27 | the renamed path splits into the original directory part and "." + the original file name |
| Paths.DotRenameHidden | homework/memc_load_old.py:25-27 | the renamed file's name starts with '.' and is one code point longer |
| Paths.DotRenameInDirectory | homework/memc_load_old.py:25-27 | `dir/name` becomes `dir/.name` |
| Loader.DeviceMemc | homework/memc_load_old.py:105-110 | the map has exactly the four device types as keys, each bound to its option |
| Loader.Route | homework/memc_load_old.py:83-84 | a line is routed exactly when its device type is in the map with a non-empty address, and then to that address |
| Loader.RouteDeviceMemc | homework/memc_load_old.py:105-110 | with `main`'s map, exactly the four known device types with a non-empty address are routed |
| Loader.LineVerdict | homework/memc_load_old.py:75-92 | a line is blank exactly when it is empty after `strip()`, and a write can fail only outside dry-run |
| Loader.LineVerdictMeaning | homework/memc_load_old.py:76-92 | each verdict in terms of the line: malformed when the parser rejects, unroutable when no address, stored when the payload builds and the write or dry run goes through, a crash when the parser raises or a routed payload cannot be built |
| Loader.NoWriteWithoutRoute | homework/memc_load_old.py:79-87 | a blank, malformed or unroutable line reaches no write: its verdict is independent of the store |
| Loader.Scan | homework/memc_load_old.py:75-92 | the loop finishes exactly when no remaining line crashes, and then each counter grows by the number of lines of its kind; otherwise it stops at the first crash |
| Loader.RateBelowInIntegers | homework/memc_load_old.py:96-97 | with processed > 0, `errors / processed < NORMAL_ERR_RATE` holds exactly when `100 * errors < processed` |
| Loader.Classify | homework/memc_load_old.py:96-100 | a rated file is acceptable exactly when there is less than one error per hundred processed lines (`100 * errors < processed`), and high otherwise |
| Loader.Conclude | homework/memc_load_old.py:93-101 | completion exactly when no line crashes; counters count stored and error lines; no rate exactly when nothing was processed; acceptable exactly when `100 * errors < processed`; renamed to the dot path; otherwise failure at the first crash |
| Loader.ProcessFile | homework/memc_load_old.py:71-101 | completion exactly when no line crashes, and then `processed + errors` is the number of non-blank lines; a failure names a crashing line |
| Loader.CountsPartition | homework/memc_load_old.py:75-92 | without a crash, every non-blank line is counted once, as processed or as an error |
| Loader.LoadFile | homework/memc_load_old.py:71-101 | the source's loop with its two counters and early exit, with the rate test done as `100 * errors < processed`, computes exactly `ProcessFile` |
| Loader.FailsAtFirstCrash | homework/memc_load_old.py:75-92 | a file fails at its first crashing line |
| Loader.BlankLineIgnored | homework/memc_load_old.py:76-78 | a blank line appended to a file changes nothing about its outcome |
| Loader.AllStoredAcceptable | homework/memc_load_old.py:88-98 | a file whose every line is stored completes with no errors, an acceptable rate, and the rename |
| Loader.AllUnknownUnrated | homework/memc_load_old.py:83-95 | a file whose every line is unroutable processes nothing, counts every line as an error, and is renamed without a rate |
| Loader.DryRunErrorsAreInputErrors | homework/memc_load_old.py:39-40 | in dry-run every error is a malformed line or an unknown device |
| Loader.TextCoordsAbortFile | homework/memc_load_old.py:32-34 | if the payload builder refuses text coordinates, a routed line with bad coordinates makes the file fail at or before that line, so the file is not renamed |

## Left out

- Protobuf: `appsinstalled_pb2`, `SerializeToString`, `ParseFromString` and `prototest` are foreign code. Whether a payload builds is the `packs` oracle, and the payload itself is not modelled.
- The memcache client: connecting and `set` are the `setCompletes` oracle. The oracle is a fixed function, so the model does not express a server that answers differently to the same write at different times.
- gzip decompression and text-mode line splitting: a file is already a sequence of lines.
- The effect of `os.rename`: only the target path `DotRename` is computed, and `Completed` records it.
- Float parsing: `float()` acceptance is the `floatOk` predicate, and the float values are not computed.
- Loader.Classify: the quotient is exact rational division, not IEEE double division. The two can differ only when the counts are so large (beyond about 10^14 lines) that the quotient rounds across the double nearest 0.01.
- PyInt.ParseInt: only the ASCII digits '0'..'9' are modelled. Python's `isdigit()` also holds for characters that `int()` refuses, such as "²"; an entry like that makes the lenient comprehension at line 62 raise `ValueError` inside the `except` handler, and the exception escapes `process_file`. That is a second crash path the model does not have: the model drops such an entry and keeps the line. Other Unicode decimal digits, such as "٣", are converted by Python (`int("٣") == 3`), while the model refuses them on the strict path and drops them on the lenient path. The 4300-digit limit of `int()` in recent Python versions is not modelled either.
- PyStr.IsSpace: the whitespace set is Python's `str.isspace()` code point list; `strip()` is modelled on code points with no normalisation.
- Paths.PathSplit: POSIX paths only.
- `main`: the `ThreadPoolExecutor` dispatch, `as_completed`, and the per-file exception logging are concurrency and I/O. Only the routing map is modelled.
- The command line, `logging`, and the stray `print(dir(memcache))`.

=== FILE: base.dfy ===
/** Small shared vocabulary: an optional value, the model of a Python `None` return. */
module Base {

  datatype Option<+T> = None | Some(value: T)

}

=== FILE: loader.dfy ===
/**
  `process_file` and the routing map of `main`: every line of one log file is
  stripped, parsed, routed by device type and written; two counters record the
  outcome; at the end the file's error rate is classified and the file is
  marked done by `dot_rename`. An exception from the parser or from building
  a payload leaves `process_file` early: the counters are lost and the file
  is not renamed.
 */
module Loader {
  import opened Base
  import opened PyStr
  import opened Paths
  import opened Parser
  import opened Writer

  /** `NORMAL_ERR_RATE`: the error rate below which a load counts as successful. */
  const NormalErrRate: real := 0.01

  /** The `device_memc` map that `main` builds from the four address options. */
  function DeviceMemc(idfa: string, gaid: string, adid: string, dvid: string): (m: map<string, string>)
    ensures m.Keys == {"idfa", "gaid", "adid", "dvid"}
    ensures m["idfa"] == idfa && m["gaid"] == gaid && m["adid"] == adid && m["dvid"] == dvid
  {
    map["idfa" := idfa, "gaid" := gaid, "adid" := adid, "dvid" := dvid]
  }

  /** `device_memc.get(dev_type)` followed by `if not memc_addr`: a usable address, or none. */
  function Route(deviceMemc: map<string, string>, devType: string): (r: Option<string>)
    ensures r.Some? <==> devType in deviceMemc && deviceMemc[devType] != []
    ensures r.Some? ==> r.value == deviceMemc[devType]
  {
    if devType in deviceMemc && deviceMemc[devType] != [] then Some(deviceMemc[devType]) else None
  }

  /** With `main`'s map, exactly the four known device types with a non-empty address route. */
  lemma RouteDeviceMemc(idfa: string, gaid: string, adid: string, dvid: string, devType: string)
    ensures Route(DeviceMemc(idfa, gaid, adid, dvid), devType).Some? <==>
      || (devType == "idfa" && idfa != [])
      || (devType == "gaid" && gaid != [])
      || (devType == "adid" && adid != [])
      || (devType == "dvid" && dvid != [])
  {
  }

  /** Everything `process_file` consults besides the lines themselves. */
  datatype Env = Env(deviceMemc: map<string, string>, dryRun: bool, floatOk: string -> bool, store: Store)

  /** What happens to one line of the file. */
  datatype Verdict =
    | Blank          // empty after `strip()`: skipped, no counter changes
    | Malformed      // `parse_appsinstalled` returned `None`
    | UnknownDevice  // no usable address for the device type
    | WriteFailed    // `insert_appsinstalled` returned `False`
    | Stored         // `insert_appsinstalled` returned `True`
    | Crash          // an exception escapes `process_file`

  predicate IsStored(v: Verdict) {
    v == Stored
  }

  predicate IsError(v: Verdict) {
    v == Malformed || v == UnknownDevice || v == WriteFailed
  }

  /**
    One iteration of the loop in `process_file`: strip, skip a blank line,
    parse, route by device type, write.
   */
  function LineVerdict(line: string, env: Env): (v: Verdict)
    ensures v == Blank <==> Strip(line) == []
    ensures v == WriteFailed ==> !env.dryRun
  {
    var stripped := Strip(line);
    if stripped == [] then Blank
    else
      match ParseLine(stripped, env.floatOk)
      case Raises => Crash
      case Rejected => Malformed
      case Parsed(rec) =>
        match Route(env.deviceMemc, rec.devType)
        case None => UnknownDevice
        case Some(addr) =>
          match Insert(addr, rec, env.dryRun, env.store)
          case Raised => Crash
          case Returned(ok) => if ok then Stored else WriteFailed
  }

  /**
    What each verdict means in terms of the line itself: a line is malformed
    when the parser rejects it, unroutable when its device type has no
    address, stored when the payload builds and the write (or the dry run)
    goes through, and it crashes when the parser raises or a routed record's
    payload cannot be built.
   */
  lemma LineVerdictMeaning(line: string, env: Env)
    ensures var v := LineVerdict(line, env); var p := ParseLine(line, env.floatOk);
      && (v == Malformed <==> Strip(line) != [] && p.Rejected?)
      && (v == UnknownDevice <==> Strip(line) != [] && p.Parsed? && Route(env.deviceMemc, p.rec.devType).None?)
      && (v == Stored <==>
            && Strip(line) != [] && p.Parsed?
            && Route(env.deviceMemc, p.rec.devType).Some?
            && env.store.packs(p.rec)
            && (env.dryRun || env.store.setCompletes(Route(env.deviceMemc, p.rec.devType).value, Key(p.rec))))
      && (v == Crash <==>
            && Strip(line) != []
            && (|| p.Raises?
                || (p.Parsed? && Route(env.deviceMemc, p.rec.devType).Some? && !env.store.packs(p.rec))))
  {
    StripIdempotent(line);
  }

  /**
    No write is attempted for a blank, malformed or unroutable line: its
    verdict is the same whatever the payload builder and the client do.
   */
  lemma NoWriteWithoutRoute(line: string, env: Env, other: Store)
    requires LineVerdict(line, env) in {Blank, Malformed, UnknownDevice}
    ensures LineVerdict(line, env.(store := other)) == LineVerdict(line, env)
  {
  }

  /** The verdict of every line, in file order. */
  function Verdicts(lines: seq<string>, env: Env): (vs: seq<Verdict>)
    ensures |vs| == |lines|
    ensures forall j :: 0 <= j < |lines| ==> vs[j] == LineVerdict(lines[j], env)
  {
    seq(|lines|, j requires 0 <= j < |lines| => LineVerdict(lines[j], env))
  }

  /** Number of verdicts that satisfy `p`. */
  function CountIf(vs: seq<Verdict>, p: Verdict -> bool): nat
  {
    if |vs| == 0 then 0 else (if p(vs[0]) then 1 else 0) + CountIf(vs[1..], p)
  }

  /** Number of lines that are not empty after `strip()`. */
  function NonBlankLines(lines: seq<string>): nat
  {
    if |lines| == 0 then 0
    else (if Strip(lines[0]) != [] then 1 else 0) + NonBlankLines(lines[1..])
  }

  /** The two counters of `process_file`. */
  datatype Counters = Counters(processed: nat, errors: nat)

  /** The loop either runs to the end of the file or is left by an exception at some line. */
  datatype Run = Finished(counters: Counters) | Aborted(atLine: nat)

  /**
    The loop of `process_file` from line `i` on, with counters `c` so far, as
    a left fold over the lines' verdicts. It finishes exactly when no
    remaining line crashes, and then each counter has grown by the number of
    remaining lines of its kind; otherwise it stops at the first crash.
   */
  function Scan(vs: seq<Verdict>, i: nat, c: Counters): (r: Run)
    requires i <= |vs|
    ensures r.Finished? <==> Crash !in vs[i..]
    ensures r.Finished? ==> r.counters == Counters(
      c.processed + CountIf(vs[i..], IsStored),
      c.errors + CountIf(vs[i..], IsError))
    ensures r.Aborted? ==> i <= r.atLine < |vs| && vs[r.atLine] == Crash && Crash !in vs[i..r.atLine]
    decreases |vs| - i
  {
    if i == |vs| then Finished(c)
    else
      assert vs[i..] == [vs[i]] + vs[i + 1..];
      match vs[i]
      case Crash => Aborted(i)
      case Blank => Scan(vs, i + 1, c)
      case Stored => Scan(vs, i + 1, c.(processed := c.processed + 1))
      case _ =>
        var r := Scan(vs, i + 1, c.(errors := c.errors + 1));
        assert r.Aborted? ==> vs[i..r.atLine] == [vs[i]] + vs[i + 1..r.atLine];
        r
  }

  /** How the load of one file is judged once its lines are done. */
  datatype Rate =
    | Unrated     // nothing was processed: no rate computed, nothing logged
    | Acceptable  // "Acceptable error rate ... Successful load"
    | High        // "High error rate ... Failed load"

  /** The quotient test `errors / processed < NORMAL_ERR_RATE` is the integer comparison `100 * errors < processed`. */
  lemma RateBelowInIntegers(processed: nat, errors: nat)
    requires processed > 0
    ensures (errors as real) / (processed as real) < NormalErrRate <==> 100 * errors < processed
  {
    var e, p := errors as real, processed as real;
    var q := e / p;
    assert q * p == e;
    assert q < 0.01 <==> q * p < 0.01 * p by {
      if q < 0.01 {
        assert (0.01 - q) * p > 0.0;
      } else {
        assert (q - 0.01) * p >= 0.0;
      }
    }
  }

  /** The error-rate test, in the source's division: acceptable exactly when there is less than one error per hundred processed lines. */
  function Classify(processed: nat, errors: nat): (r: Rate)
    requires processed > 0
    ensures r != Unrated
    ensures r == Acceptable <==> 100 * errors < processed
  {
    RateBelowInIntegers(processed, errors);
    if (errors as real) / (processed as real) < NormalErrRate then Acceptable else High
  }

  /**
    The result of `process_file(path)`: either it returns, with both
    counters, the classification, and the path the file was renamed to, or an
    exception left it at some line and the file was not renamed.
   */
  datatype FileOutcome =
    | Completed(processed: nat, errors: nat, rate: Rate, renamedTo: string)
    | Failed(atLine: nat)

  /**
    The rest of `process_file` once the verdict of every line is known. It
    completes exactly when no line crashes; then `processed` counts the
    stored lines and `errors` the malformed, unroutable and failed ones, the
    rate is left unclassified exactly when nothing was processed, and the
    file is renamed to its dot-prefixed name. Otherwise it fails at the first
    crashing line.
   */
  function Conclude(path: string, vs: seq<Verdict>): (r: FileOutcome)
    ensures r.Completed? <==> Crash !in vs
    ensures r.Completed? ==>
      && r.processed == CountIf(vs, IsStored)
      && r.errors == CountIf(vs, IsError)
      && (r.rate == Unrated <==> r.processed == 0)
      && (r.rate == Acceptable <==> 0 < r.processed && 100 * r.errors < r.processed)
      && r.renamedTo == DotRename(path)
    ensures r.Failed? ==> r.atLine < |vs| && vs[r.atLine] == Crash && Crash !in vs[..r.atLine]
  {
    assert vs[0..] == vs;
    match Scan(vs, 0, Counters(0, 0))
    case Aborted(i) =>
      assert vs[0..i] == vs[..i];
      Failed(i)
    case Finished(c) =>
      if c.processed == 0 then
        Completed(c.processed, c.errors, Unrated, DotRename(path))
      else
        Completed(c.processed, c.errors, Classify(c.processed, c.errors), DotRename(path))
  }

  /**
    `process_file(path, device_memc, dry_run)` on a file whose decompressed
    lines are `lines`: it completes exactly when no line crashes, and then
    every non-blank line is counted once, as processed or as an error;
    otherwise it fails at a crashing line.
   */
  function ProcessFile(path: string, lines: seq<string>, env: Env): (r: FileOutcome)
    ensures r.Completed? <==> forall j :: 0 <= j < |lines| ==> LineVerdict(lines[j], env) != Crash
    ensures r.Completed? ==> r.processed + r.errors == NonBlankLines(lines)
    ensures r.Failed? ==> r.atLine < |lines| && LineVerdict(lines[r.atLine], env) == Crash
  {
    var vs := Verdicts(lines, env);
    var r := Conclude(path, vs);
    if r.Completed? then
      CountsPartition(lines, env);
      r
    else
      assert vs[r.atLine] == Crash;
      r
  }

  /** Without a crash, every non-blank line is counted exactly once, as processed or as an error. */
  lemma {:induction false} CountsPartition(lines: seq<string>, env: Env)
    requires Crash !in Verdicts(lines, env)
    ensures CountIf(Verdicts(lines, env), IsStored) + CountIf(Verdicts(lines, env), IsError) == NonBlankLines(lines)
  {
    if |lines| > 0 {
      var vs := Verdicts(lines, env);
      assert vs[1..] == Verdicts(lines[1..], env);
      CountsPartition(lines[1..], env);
      assert vs[0] == LineVerdict(lines[0], env);
    }
  }

  /** The outcome of a file that fails is fixed by its first crashing line. */
  lemma FailsAtFirstCrash(path: string, vs: seq<Verdict>, i: nat)
    requires i < |vs| && vs[i] == Crash && Crash !in vs[..i]
    ensures Conclude(path, vs) == Failed(i)
  {
    assert Crash in vs;
  }

  /**
    `process_file` as the source writes it: a loop over the lines that bumps
    one counter per non-blank line and leaves at the first exception. It
    computes exactly the outcome `ProcessFile` describes.
   */
  method LoadFile(path: string, lines: seq<string>, env: Env) returns (r: FileOutcome)
    ensures r == ProcessFile(path, lines, env)
  {
    ghost var vs := Verdicts(lines, env);
    var processed, errors := 0, 0;
    var i := 0;
    while i < |lines|
      invariant i <= |lines|
      invariant Crash !in vs[..i]
      invariant processed == CountIf(vs[..i], IsStored)
      invariant errors == CountIf(vs[..i], IsError)
    {
      var v := LineVerdict(lines[i], env);
      assert v == vs[i];
      if v == Crash {
        FailsAtFirstCrash(path, vs, i);
        return Failed(i);
      }
      Tick(vs, i);
      processed := processed + (if v == Stored then 1 else 0);
      errors := errors + (if IsError(v) then 1 else 0);
      i := i + 1;
    }
    assert vs[..i] == vs;
    var rate := Unrated;
    if processed > 0 {
      rate := if 100 * errors < processed then Acceptable else High;
    }
    r := Completed(processed, errors, rate, DotRename(path));
  }

  /** One more non-crashing verdict moves each count by at most one. */
  lemma Tick(vs: seq<Verdict>, i: nat)
    requires i < |vs| && Crash !in vs[..i] && vs[i] != Crash
    ensures Crash !in vs[..i + 1]
    ensures CountIf(vs[..i + 1], IsStored) == CountIf(vs[..i], IsStored) + (if vs[i] == Stored then 1 else 0)
    ensures CountIf(vs[..i + 1], IsError) == CountIf(vs[..i], IsError) + (if IsError(vs[i]) then 1 else 0)
  {
    assert vs[..i + 1] == vs[..i] + [vs[i]];
    CountIfAppend(vs[..i], vs[i], IsStored);
    CountIfAppend(vs[..i], vs[i], IsError);
  }

  lemma {:induction false} CountIfAppend(vs: seq<Verdict>, v: Verdict, p: Verdict -> bool)
    ensures CountIf(vs + [v], p) == CountIf(vs, p) + (if p(v) then 1 else 0)
  {
    if |vs| == 0 {
      assert vs + [v] == [v];
    } else {
      assert (vs + [v])[1..] == vs[1..] + [v];
      CountIfAppend(vs[1..], v, p);
    }
  }

  /** A blank verdict appended after the end leaves the fold unchanged. */
  lemma {:induction false} ScanBlank(vs: seq<Verdict>, i: nat, c: Counters)
    requires i <= |vs|
    ensures Scan(vs + [Blank], i, c) == Scan(vs, i, c)
    decreases |vs| - i
  {
    var more := vs + [Blank];
    if i == |vs| {
      assert more[i] == Blank;
      assert Scan(more, i + 1, c) == Finished(c);
    } else {
      assert more[i] == vs[i];
      match vs[i]
      case Crash =>
      case Blank => ScanBlank(vs, i + 1, c);
      case Stored => ScanBlank(vs, i + 1, c.(processed := c.processed + 1));
      case _ => ScanBlank(vs, i + 1, c.(errors := c.errors + 1));
    }
  }

  /** A blank line at the end of a file changes nothing about its outcome. */
  lemma BlankLineIgnored(path: string, lines: seq<string>, blank: string, env: Env)
    requires Strip(blank) == []
    ensures ProcessFile(path, lines + [blank], env) == ProcessFile(path, lines, env)
  {
    var vs := Verdicts(lines, env);
    assert Verdicts(lines + [blank], env) == vs + [Blank];
    ScanBlank(vs, 0, Counters(0, 0));
  }

  lemma {:induction false} CountAll(vs: seq<Verdict>, p: Verdict -> bool)
    requires forall j :: 0 <= j < |vs| ==> p(vs[j])
    ensures CountIf(vs, p) == |vs|
  {
    if |vs| > 0 {
      CountAll(vs[1..], p);
    }
  }

  lemma {:induction false} CountNone(vs: seq<Verdict>, p: Verdict -> bool)
    requires forall j :: 0 <= j < |vs| ==> !p(vs[j])
    ensures CountIf(vs, p) == 0
  {
    if |vs| > 0 {
      CountNone(vs[1..], p);
    }
  }

  /** `ProcessFile` is the conclusion drawn from the lines' verdicts. */
  lemma ProcessFileConcludes(path: string, lines: seq<string>, env: Env)
    ensures ProcessFile(path, lines, env) == Conclude(path, Verdicts(lines, env))
  {
  }

  /** Verdicts that are all `Stored` conclude with no errors, an acceptable rate and the rename. */
  lemma AllStoredVerdicts(path: string, vs: seq<Verdict>)
    requires |vs| > 0
    requires forall j :: 0 <= j < |vs| ==> vs[j] == Stored
    ensures Conclude(path, vs) == Completed(|vs|, 0, Acceptable, DotRename(path))
  {
    CountAll(vs, IsStored);
    CountNone(vs, IsError);
    assert Crash !in vs;
  }

  /** Verdicts that are all `UnknownDevice` conclude with everything an error and no rate. */
  lemma AllUnknownVerdicts(path: string, vs: seq<Verdict>)
    requires forall j :: 0 <= j < |vs| ==> vs[j] == UnknownDevice
    ensures Conclude(path, vs) == Completed(0, |vs|, Unrated, DotRename(path))
  {
    CountNone(vs, IsStored);
    CountAll(vs, IsError);
    assert Crash !in vs;
  }

  /** A file whose every line is stored loads with an acceptable error rate and is renamed. */
  lemma AllStoredAcceptable(path: string, lines: seq<string>, env: Env)
    requires |lines| > 0
    requires forall j :: 0 <= j < |lines| ==> LineVerdict(lines[j], env) == Stored
    ensures ProcessFile(path, lines, env) == Completed(|lines|, 0, Acceptable, DotRename(path))
  {
    ProcessFileConcludes(path, lines, env);
    AllStoredVerdicts(path, Verdicts(lines, env));
  }

  /**
    A file whose every line has a device type without an address processes
    nothing: it is renamed without any rate being computed.
   */
  lemma AllUnknownUnrated(path: string, lines: seq<string>, env: Env)
    requires forall j :: 0 <= j < |lines| ==> LineVerdict(lines[j], env) == UnknownDevice
    ensures ProcessFile(path, lines, env) == Completed(0, |lines|, Unrated, DotRename(path))
  {
    ProcessFileConcludes(path, lines, env);
    AllUnknownVerdicts(path, Verdicts(lines, env));
  }

  predicate IsInputError(v: Verdict) {
    v == Malformed || v == UnknownDevice
  }

  /** In dry-run mode no write can fail: every error is a malformed line or an unknown device. */
  lemma {:induction false} DryRunErrorsAreInputErrors(lines: seq<string>, env: Env)
    requires env.dryRun
    ensures CountIf(Verdicts(lines, env), IsError) == CountIf(Verdicts(lines, env), IsInputError)
  {
    if |lines| > 0 {
      var vs := Verdicts(lines, env);
      assert vs[1..] == Verdicts(lines[1..], env);
      DryRunErrorsAreInputErrors(lines[1..], env);
      assert vs[0] == LineVerdict(lines[0], env);
    }
  }

  /**
    Unparsable coordinates stay strings, and a payload builder that refuses
    string coordinates (as a protobuf `double` field does) then raises before
    the `try`: a routed line with bad coordinates makes the whole file fail
    at or before that line, and the file is not renamed.
   */
  lemma TextCoordsAbortFile(path: string, lines: seq<string>, env: Env, i: nat)
    requires forall rec: Record :: rec.coords.Texts? ==> !env.store.packs(rec)
    requires i < |lines|
    requires ParseLine(lines[i], env.floatOk).Parsed?
    requires !ParseLine(lines[i], env.floatOk).rec.coords.Floats?
    requires Route(env.deviceMemc, ParseLine(lines[i], env.floatOk).rec.devType).Some?
    ensures ProcessFile(path, lines, env).Failed?
    ensures ProcessFile(path, lines, env).atLine <= i
  {
    var s := Strip(lines[i]);
    assert Occurrences(s, '\t') == 4;
    LineVerdictMeaning(lines[i], env);
    assert LineVerdict(lines[i], env) == Crash;
    assert Verdicts(lines, env)[i] == Crash;
  }
}

=== FILE: parser.dfy ===
/**
  `parse_appsinstalled`: one line of the tab-separated log becomes a record
  (device type, device id, coordinates, installed application ids), is
  rejected (`None` in the source), or makes the source raise `ValueError`.
 */
module Parser {
  import opened Base
  import opened PyStr
  import opened PyInt

  /**
    Latitude and longitude after `lat, lon = float(lat), float(lon)`: both
    converted when both texts are floats, otherwise both kept as their raw
    text (the tuple is only assigned when both conversions succeed). The
    float values themselves are not modelled; `Floats` carries the text each
    value was read from.
   */
  datatype Coords = Floats(lat: string, lon: string) | Texts(lat: string, lon: string)

  /** The `AppsInstalled` named tuple. */
  datatype Record = Record(devType: string, devId: string, coords: Coords, apps: seq<int>)

  /** A record, a rejection (`None`), or an exception escaping the parser. */
  datatype ParseResult = Parsed(rec: Record) | Rejected | Raises

  /**
    `[int(a.strip()) for a in entries]`: every entry's value in input order,
    or `None` as soon as one entry is not an integer (the `ValueError`).
   */
  function StrictApps(entries: seq<string>): (r: Option<seq<int>>)
    ensures r.Some? <==> forall k :: 0 <= k < |entries| ==> ParseInt(Strip(entries[k])).Some?
    ensures r.Some? ==> |r.value| == |entries|
    ensures r.Some? ==> forall k :: 0 <= k < |entries| ==> r.value[k] == ParseInt(Strip(entries[k])).value
  {
    if |entries| == 0 then Some([])
    else
      var head, rest := ParseInt(Strip(entries[0])), StrictApps(entries[1..]);
      assert forall k :: 1 <= k < |entries| ==> entries[k] == entries[1..][k - 1];
      if head.Some? && rest.Some? then Some([head.value] + rest.value) else None
  }

  /**
    `[int(a.strip()) for a in entries if a.isdigit()]`: the values of the
    digit-only entries, in input order. The filter looks at the unstripped
    entry, so " 5" and "+5" are dropped here although `int` accepts them.
   */
  function DigitApps(entries: seq<string>): (r: seq<int>)
    ensures |r| <= |entries|
    ensures forall k :: 0 <= k < |r| ==> r[k] >= 0
    ensures (forall k :: 0 <= k < |entries| ==> IsDigits(entries[k])) ==> |r| == |entries|
  {
    if |entries| == 0 then []
    else
      var a := entries[0];
      assert forall k :: 1 <= k < |entries| ==> entries[k] == entries[1..][k - 1];
      if IsDigits(a) then
        StripTrimmed(a);
        ParseDigits(a);
        [ParseInt(Strip(a)).value] + DigitApps(entries[1..])
      else DigitApps(entries[1..])
  }

  /**
    The `apps` field: the strict conversion when every comma-separated entry
    is an integer, otherwise the digit-only entries. Never a rejection.
   */
  function ParseApps(raw: string): (apps: seq<int>)
    ensures var entries := Split(raw, ',');
      && |apps| <= |entries|
      && ((forall k :: 0 <= k < |entries| ==> ParseInt(Strip(entries[k])).Some?) ==>
            |apps| == |entries| && forall k :: 0 <= k < |entries| ==> apps[k] == ParseInt(Strip(entries[k])).value)
  {
    var entries := Split(raw, ',');
    match StrictApps(entries)
    case Some(values) => values
    case None => DigitApps(entries)
  }

  /** `float(lat), float(lon)` with an abstract test of which texts `float` accepts. */
  function ParseCoords(lat: string, lon: string, floatOk: string -> bool): (c: Coords)
    ensures c.lat == lat && c.lon == lon
    ensures c.Floats? <==> floatOk(lat) && floatOk(lon)
  {
    if floatOk(lat) && floatOk(lon) then Floats(lat, lon) else Texts(lat, lon)
  }

  /**
    `parse_appsinstalled(line)`. With `s` the stripped line: more than four
    tabs raise at the five-way unpack; fewer than four, or an empty device id,
    reject; otherwise the record holds the five fields. The device type can
    never be empty here, because a stripped line cannot start with a tab.
   */
  function ParseLine(line: string, floatOk: string -> bool): (r: ParseResult)
    ensures var s := Strip(line); var tabs := Occurrences(s, '\t');
      && (r.Raises? <==> tabs > 4)
      && (r.Rejected? <==> tabs < 4 || (tabs == 4 && Split(s, '\t')[1] == []))
      && (r.Parsed? ==>
            && r.rec.devType != [] && !IsSpace(r.rec.devType[0]) && r.rec.devId != []
            && '\t' !in r.rec.devType && '\t' !in r.rec.devId
            && (r.rec.coords.Floats? <==> floatOk(r.rec.coords.lat) && floatOk(r.rec.coords.lon)))
  {
    var s := Strip(line);
    var fields := Split(s, '\t');
    if |fields| < 5 then Rejected
    else if |fields| > 5 then Raises
    else if fields[0] == [] || fields[1] == [] then Rejected
    else
      SplitFirst(s, '\t');
      Parsed(Record(fields[0], fields[1], ParseCoords(fields[2], fields[3], floatOk), ParseApps(fields[4])))
  }

  /** The `apps` field as the log writes it: decimal ids separated by commas. */
  function AppsText(apps: seq<nat>): string
  {
    Join(seq(|apps|, k requires 0 <= k < |apps| => DecimalString(apps[k])), ',')
  }

  /** A code point absent from every piece and different from the separator is absent from the join. */
  lemma {:induction false} JoinAvoids(parts: seq<string>, sep: char, c: char)
    requires c != sep
    requires forall k :: 0 <= k < |parts| ==> c !in parts[k]
    ensures c !in Join(parts, sep)
  {
    if |parts| > 1 {
      JoinAvoids(parts[1..], sep, c);
    }
  }

  /** Lenient coercion is a filter: it distributes over concatenation of entry lists. */
  lemma {:induction false} DigitAppsConcat(a: seq<string>, b: seq<string>)
    ensures DigitApps(a + b) == DigitApps(a) + DigitApps(b)
  {
    if |a| == 0 {
      assert a + b == b;
    } else {
      assert (a + b)[0] == a[0];
      assert (a + b)[1..] == a[1..] + b;
      DigitAppsConcat(a[1..], b);
    }
  }

  /** The lenient filter on one entry: its value when it is digits only, nothing otherwise. */
  lemma DigitAppsSingle(a: string)
    ensures DigitApps([a]) == if IsDigits(a) then [DecimalValue(a)] else []
  {
    assert [a][1..] == [];
    if IsDigits(a) {
      StripTrimmed(a);
      ParseDigits(a);
    }
  }

  /**
    One entry `int()` refuses is enough to make the whole field the lenient
    filter's result, whatever the other entries hold.
   */
  lemma ParseAppsLenient(raw: string, k: nat)
    requires k < |Split(raw, ',')| && ParseInt(Strip(Split(raw, ',')[k])).None?
    ensures ParseApps(raw) == DigitApps(Split(raw, ','))
  {
    assert StrictApps(Split(raw, ',')).None?;
  }

  /** When every entry is digits only, the lenient path would give what the strict path gives. */
  lemma {:induction false} DigitAppsAgree(entries: seq<string>)
    requires forall k :: 0 <= k < |entries| ==> IsDigits(entries[k])
    ensures StrictApps(entries).Some?
    ensures DigitApps(entries) == StrictApps(entries).value
  {
    if |entries| > 0 {
      assert forall k :: 0 <= k < |entries[1..]| ==> entries[1..][k] == entries[k + 1];
      DigitAppsAgree(entries[1..]);
      StripTrimmed(entries[0]);
      ParseDigits(entries[0]);
    }
  }

  /** Round trip on the `apps` field: decimal ids joined with commas parse back to the ids. */
  lemma ParseAppsText(apps: seq<nat>)
    ensures ParseApps(AppsText(apps)) == apps
  {
    if |apps| == 0 {
      // the text is empty, its one entry is refused by `int()` and not kept by the filter
      assert AppsText(apps) == [];
      assert Split([], ',') == [[]];
      DigitAppsSingle([]);
      assert ParseInt(Strip([])) == None;
    } else {
      var strs := seq(|apps|, k requires 0 <= k < |apps| => DecimalString(apps[k]));
      forall k | 0 <= k < |strs|
        ensures ',' !in strs[k]
        ensures ParseInt(Strip(strs[k])) == Some(apps[k] as int)
      {
        StripTrimmed(strs[k]);
        ParseDecimalString(apps[k]);
      }
      SplitJoin(strs, ',');
      var r := ParseApps(AppsText(apps));
      assert |r| == |apps|;
      assert forall k :: 0 <= k < |apps| ==> r[k] == apps[k];
    }
  }

  /** A formatted line is already stripped and splits back into its five fields. */
  lemma FormattedLine(devType: string, devId: string, lat: string, lon: string, text: string)
    requires devType != [] && !IsSpace(devType[0])
    requires text != [] && !IsSpace(text[|text| - 1])
    requires '\t' !in devType && '\t' !in devId && '\t' !in lat && '\t' !in lon && '\t' !in text
    ensures var line := devType + "\t" + devId + "\t" + lat + "\t" + lon + "\t" + text;
      Strip(line) == line && Split(line, '\t') == [devType, devId, lat, lon, text]
  {
    var parts := [devType, devId, lat, lon, text];
    var line := Join(parts, '\t');
    JoinFive(devType, devId, lat, lon, text, '\t');
    JoinLast(parts, '\t');
    assert line[0] == devType[0];
    StripTrimmed(line);
    SplitJoin(parts, '\t');
  }

  /**
    Round trip on a whole line: a record whose fields contain no tab, whose
    device type does not start with whitespace and whose apps list is not
    empty, written as five tab-separated fields, parses back to that record.
   */
  lemma ParseFormatted(devType: string, devId: string, lat: string, lon: string, apps: seq<nat>, floatOk: string -> bool)
    requires devType != [] && !IsSpace(devType[0]) && devId != []
    requires '\t' !in devType && '\t' !in devId && '\t' !in lat && '\t' !in lon
    requires |apps| > 0
    ensures ParseLine(devType + "\t" + devId + "\t" + lat + "\t" + lon + "\t" + AppsText(apps), floatOk)
         == Parsed(Record(devType, devId, ParseCoords(lat, lon, floatOk), apps))
  {
    var strs := seq(|apps|, k requires 0 <= k < |apps| => DecimalString(apps[k]));
    var text := AppsText(apps);
    JoinAvoids(strs, ',', '\t');
    JoinLast(strs, ',');
    assert text != [] && IsDigit(text[|text| - 1]);
    ParseFields(devType, devId, lat, lon, text, floatOk);
    ParseAppsText(apps);
  }

  /**
    A parsed line holds its own fields: with tab-free fields, a device type
    and apps text that `strip()` leaves alone, and a non-empty device id, the
    record is the device type, the device id, the converted coordinates and
    the coerced apps field, whichever path the coercion takes.
   */
  lemma ParseFields(devType: string, devId: string, lat: string, lon: string, raw: string, floatOk: string -> bool)
    requires devType != [] && !IsSpace(devType[0]) && devId != []
    requires raw != [] && !IsSpace(raw[|raw| - 1])
    requires '\t' !in devType && '\t' !in devId && '\t' !in lat && '\t' !in lon && '\t' !in raw
    ensures ParseLine(devType + "\t" + devId + "\t" + lat + "\t" + lon + "\t" + raw, floatOk)
         == Parsed(Record(devType, devId, ParseCoords(lat, lon, floatOk), ParseApps(raw)))
  {
    FormattedLine(devType, devId, lat, lon, raw);
  }

  /**
    A line with exactly four tabs whose apps field is empty ends in a tab;
    `strip()` removes that tab, so too few fields remain and it is rejected.
   */
  lemma TrailingTabRejected(line: string, floatOk: string -> bool)
    requires Occurrences(line, '\t') == 4
    requires |line| > 0 && line[|line| - 1] == '\t'
    ensures ParseLine(line, floatOk) == Rejected
  {
    StripDropsTrailing(line, '\t');
  }

  /**
    An empty device id is rejected, whatever the other fields hold, as long as
    no field brings in a tab of its own: `strip()` either eats into the tabs,
    which leaves too few fields, or keeps both tabs around the empty field.
   */
  lemma EmptyDeviceIdRejected(devType: string, lat: string, lon: string, raw: string, floatOk: string -> bool)
    requires '\t' !in devType && '\t' !in lat && '\t' !in lon && '\t' !in raw
    ensures ParseLine(devType + "\t" + "\t" + lat + "\t" + lon + "\t" + raw, floatOk) == Rejected
  {
    var parts := [devType, [], lat, lon, raw];
    JoinFive(devType, [], lat, lon, raw, '\t');
    var line := Join(parts, '\t');
    assert line == devType + "\t" + "\t" + lat + "\t" + lon + "\t" + raw;
    SplitJoin(parts, '\t');
    assert Occurrences(line, '\t') == 4;
    var p := |devType|;
    assert line[p] == '\t' && line[p + 1] == '\t';
    assert line[..p] == devType;
    StripOccurrences(line, '\t');
    if Occurrences(Strip(line), '\t') == 4 {
      StripPairSplit(line, '\t', p);
    }
  }

  /** The ids of the source's unit test render as "1423", "43" and "567". */
  lemma ExampleIds(a: nat, b: nat, c: nat)
    requires a == 1423 && b == 43 && c == 567
    ensures DecimalString(a) == "1423" && DecimalString(b) == "43" && DecimalString(c) == "567"
  {
    DecimalStringDigit(1, 4);
    DecimalStringDigit(14, 2);
    DecimalStringDigit(142, 3);
    DecimalStringDigit(4, 3);
    DecimalStringDigit(5, 6);
    DecimalStringDigit(56, 7);
  }

  /** The apps field of the source's unit test renders as "1423,43,567". */
  lemma AppsTextExample(apps: seq<nat>)
    requires apps == [1423, 43, 567]
    ensures AppsText(apps) == "1423,43,567"
  {
    var strs := seq(|apps|, k requires 0 <= k < |apps| => DecimalString(apps[k]));
    ExampleIds(apps[0], apps[1], apps[2]);
    assert strs == ["1423", "43", "567"];
    JoinThree("1423", "43", "567", ',');
  }

  /** The valid line of the source's unit test, field by field. */
  lemma ValidLineExample(devType: string, devId: string, lat: string, lon: string, raw: string, floatOk: string -> bool)
    requires devType == "idfa" && devId == "1rfw452y52g2gq4g" && lat == "55.55" && lon == "42.42" && raw == "1423,43,567"
    requires floatOk(lat) && floatOk(lon)
    ensures ParseLine(devType + "\t" + devId + "\t" + lat + "\t" + lon + "\t" + raw, floatOk)
         == Parsed(Record(devType, devId, Floats(lat, lon), [1423, 43, 567]))
  {
    var apps: seq<nat> := [1423, 43, 567];
    AppsTextExample(apps);
    assert '\t' !in devType && '\t' !in devId && '\t' !in lat && '\t' !in lon;
    ParseFormatted(devType, devId, lat, lon, apps, floatOk);
  }

  /** The invalid line of the source's unit test, field by field: the device id is empty. */
  lemma EmptyDeviceIdExample(devType: string, lat: string, lon: string, raw: string, floatOk: string -> bool)
    requires devType == "idfa" && lat == "55.55" && lon == "42.42" && raw == "1423,43,567"
    ensures ParseLine(devType + "\t" + "\t" + lat + "\t" + lon + "\t" + raw, floatOk) == Rejected
  {
    assert !IsSpace(raw[|raw| - 1]);
    assert '\t' !in devType && '\t' !in lat && '\t' !in lon && '\t' !in raw;
    EmptyDeviceIdRejected(devType, lat, lon, raw, floatOk);
  }

  /** An `isdigit()` entry survives `strip()` and `int()` with its decimal value. */
  lemma DigitsParsed(a: string)
    ensures IsDigits(a) ==> ParseInt(Strip(a)) == Some(DecimalValue(a))
  {
    if IsDigits(a) {
      StripTrimmed(a);
      ParseDigits(a);
    }
  }

  /** The lenient filter keeps the digit-only entries around one that is not. */
  lemma DigitAppsSkip(a: string, b: string, c: string)
    requires IsDigits(a) && IsDigits(c) && !IsDigits(b)
    ensures DigitApps([a, b, c]) == [DecimalValue(a), DecimalValue(c)]
  {
    DigitAppsSingle(a);
    DigitAppsSingle(b);
    DigitAppsSingle(c);
    assert DigitApps([b, c]) == [DecimalValue(c)] by {
      DigitAppsConcat([b], [c]);
      assert [b] + [c] == [b, c];
    }
    DigitAppsConcat([a], [b, c]);
    assert [a] + [b, c] == [a, b, c];
  }

  /**
    One entry that `int()` refuses sends the whole field down the lenient
    path: the digit-only entries around it survive, in order, and the refused
    entry is dropped.
   */
  lemma LenientApps(a: string, b: string, c: string)
    requires IsDigits(a) && IsDigits(c)
    requires ',' !in b && ParseInt(Strip(b)) == None
    ensures ParseApps(a + "," + b + "," + c) == [DecimalValue(a), DecimalValue(c)]
  {
    DigitsParsed(b);
    var entries := [a, b, c];
    assert ',' !in a && ',' !in c by {
      assert !IsDigit(',');
    }
    assert Split(a + "," + b + "," + c, ',') == entries by {
      JoinThree(a, b, c, ',');
      SplitJoin(entries, ',');
    }
    assert StrictApps(entries) == None by {
      assert entries[1] == b;
    }
    DigitAppsSkip(a, b, c);
  }

  /** Non-numeric app entries are dropped without rejecting the line: "1,x,3" gives [1, 3]. */
  lemma LenientAppsExample(a: string, b: string, c: string)
    requires a == "1" && b == "x" && c == "3"
    ensures ParseApps(a + "," + b + "," + c) == [1, 3]
  {
    assert IsDigits(a) && IsDigits(c) by {
      assert a[0] == '1' && c[0] == '3';
    }
    assert DecimalValue(a) == 1 by {
      assert a[..0] == [];
    }
    assert DecimalValue(c) == 3 by {
      assert c[..0] == [];
    }
    assert Strip(b) == b by {
      assert !IsSpace(b[0]);
      StripTrimmed(b);
    }
    assert ParseInt(b) == None by {
      assert !IsDigit(b[0]);
    }
    LenientApps(a, b, c);
  }

  /** The apps text "1,x,3", written as one literal. */
  lemma LenientAppsLiteral(raw: string)
    requires raw == "1,x,3"
    ensures ParseApps(raw) == [1, 3]
  {
    var t := "1" + "," + "x" + "," + "3";
    assert raw == t by {
      assert |t| == 5;
      assert t[0] == '1' && t[1] == ',' && t[2] == 'x' && t[3] == ',' && t[4] == '3';
    }
    LenientAppsExample("1", "x", "3");
  }

  /** The fields of the lenient example line are tab-free and `strip()` leaves the line's ends alone. */
  lemma LenientLineFields(devType: string, devId: string, lat: string, lon: string, raw: string)
    requires devType == "idfa" && devId == "abc123" && lat == "55.55" && lon == "42.42" && raw == "1,x,3"
    ensures devType != [] && !IsSpace(devType[0]) && devId != []
    ensures raw != [] && !IsSpace(raw[|raw| - 1])
    ensures '\t' !in devType && '\t' !in devId && '\t' !in lat && '\t' !in lon && '\t' !in raw
  {
  }

  /** A whole line with a non-numeric app entry is still parsed, keeping the numeric entries. */
  lemma LenientLineExample(devType: string, devId: string, lat: string, lon: string, raw: string, floatOk: string -> bool)
    requires devType == "idfa" && devId == "abc123" && lat == "55.55" && lon == "42.42" && raw == "1,x,3"
    ensures ParseLine(devType + "\t" + devId + "\t" + lat + "\t" + lon + "\t" + raw, floatOk)
         == Parsed(Record(devType, devId, ParseCoords(lat, lon, floatOk), [1, 3]))
  {
    LenientAppsLiteral(raw);
    LenientLineFields(devType, devId, lat, lon, raw);
    ParseFields(devType, devId, lat, lon, raw, floatOk);
  }
}

=== FILE: paths.dfy ===
/**
  POSIX `os.path.split` and `os.path.join`, and the completion marker
  `dot_rename`, which renames a processed file to the same name prefixed with
  '.' in the same directory. Only the target path is modelled; the rename
  itself is a file-system effect.
 */
module Paths {

  datatype PathParts = PathParts(head: string, tail: string)

  /** `p.rfind('/') + 1`: where the last component starts. */
  function BaseStart(p: string): (i: nat)
    ensures i <= |p|
    ensures i > 0 ==> p[i - 1] == '/'
    ensures forall k :: i <= k < |p| ==> p[k] != '/'
  {
    if |p| == 0 then 0
    else if p[|p| - 1] == '/' then |p|
    else BaseStart(p[..|p| - 1])
  }

  predicate AllSlashes(s: string) {
    forall k :: 0 <= k < |s| ==> s[k] == '/'
  }

  /** `s.rstrip('/')`. */
  function RStripSlashes(s: string): (r: string)
    ensures |r| <= |s| && r == s[..|r|]
    ensures forall k :: |r| <= k < |s| ==> s[k] == '/'
    ensures r == [] || r[|r| - 1] != '/'
  {
    if |s| > 0 && s[|s| - 1] == '/' then RStripSlashes(s[..|s| - 1]) else s
  }

  /**
    `os.path.split(p)`: the tail is everything after the last '/', the head
    everything before it with trailing slashes removed, unless the head
    consists of slashes only.
   */
  function PathSplit(p: string): (r: PathParts)
  {
    var i := BaseStart(p);
    var head := p[..i];
    PathParts(if head != [] && !AllSlashes(head) then RStripSlashes(head) else head, p[i..])
  }

  /**
    What `os.path.split` promises: `p` is the head, then a run of slashes,
    then the tail, which holds no '/'. The run is empty when the head is empty
    or made of slashes only; the head keeps a trailing '/' only when it is
    made of slashes, and then it is everything before the tail.
   */
  lemma PathSplitParts(p: string)
    ensures var r := PathSplit(p);
      && (forall k :: 0 <= k < |r.tail| ==> r.tail[k] != '/')
      && |r.tail| <= |p| && r.tail == p[|p| - |r.tail|..]
      && (|r.tail| < |p| ==> p[|p| - |r.tail| - 1] == '/')
      && |r.head| <= |p| - |r.tail| && r.head == p[..|r.head|]
      && (forall k :: |r.head| <= k < |p| - |r.tail| ==> p[k] == '/')
      && (r.head == [] || AllSlashes(r.head) || r.head[|r.head| - 1] != '/')
      && (r.head == [] <==> |r.tail| == |p|)
      && (AllSlashes(p[..|p| - |r.tail|]) ==> r.head == p[..|p| - |r.tail|])
      && (AllSlashes(r.head) ==> |r.head| + |r.tail| == |p|)
  {
  }

  /** `os.path.join(a, b)` for two components. */
  function PathJoin(a: string, b: string): string
  {
    if |b| > 0 && b[0] == '/' then b
    else if a == [] || a[|a| - 1] == '/' then a + b
    else a + "/" + b
  }

  /** The target of `dot_rename(path)`: the file's name prefixed with '.', in the same directory. */
  function DotRename(path: string): (r: string)
    ensures PathSplit(r) == PathParts(PathSplit(path).head, "." + PathSplit(path).tail)
  {
    var parts := PathSplit(path);
    var name := "." + parts.tail;
    assert '/' !in name by {
      assert forall k :: 1 <= k < |name| ==> name[k] == parts.tail[k - 1];
    }
    PathJoinSplit(path, name);
    PathJoin(parts.head, "." + parts.tail)
  }

  /** Splitting `head + tail` at the last '/', when `tail` has no '/'. */
  lemma BaseStartOf(head: string, tail: string)
    requires '/' !in tail
    requires head == [] || head[|head| - 1] == '/'
    ensures BaseStart(head + tail) == |head|
    decreases |tail|
  {
    var p := head + tail;
    if |tail| > 0 {
      assert p[..|p| - 1] == head + tail[..|tail| - 1];
      assert p[|p| - 1] == tail[|tail| - 1];
      BaseStartOf(head, tail[..|tail| - 1]);
    } else {
      assert p == head;
    }
  }

  /**
    Joining a name without '/' onto the head `os.path.split` produced and
    splitting again gives back that head and the name.
   */
  lemma PathJoinSplit(path: string, name: string)
    requires '/' !in name
    ensures PathSplit(PathJoin(PathSplit(path).head, name)) == PathParts(PathSplit(path).head, name)
  {
    var head := PathSplit(path).head;
    var r := PathJoin(head, name);
    var i := BaseStart(path);
    if head == [] || head[|head| - 1] == '/' {
      assert r == head + name;
      BaseStartOf(head, name);
      assert r[..|head|] == head && r[|head|..] == name;
      if head != [] {
        // a head that still ends in '/' was not stripped, so it is all slashes
        assert AllSlashes(path[..i]);
        assert head == path[..i];
      }
    } else {
      assert r == (head + "/") + name;
      BaseStartOf(head + "/", name);
      var h := head + "/";
      assert r[..|h|] == h && r[|h|..] == name;
      assert h[|h| - 2] != '/';
      assert !AllSlashes(h);
      assert h[..|h| - 1] == head;
      assert RStripSlashes(h) == head;
    }
  }

  /** The renamed file's name always starts with '.' and is one code point longer. */
  lemma DotRenameHidden(path: string)
    ensures var t := PathSplit(DotRename(path)).tail; |t| == |PathSplit(path).tail| + 1 && t[0] == '.'
  {
    var t := PathSplit(DotRename(path)).tail;
    assert t == "." + PathSplit(path).tail;
  }

  /** A file `name` in directory `dir` (written without a trailing slash) becomes `dir/.name`. */
  lemma DotRenameInDirectory(dir: string, name: string)
    requires dir != [] && dir[|dir| - 1] != '/'
    requires '/' !in name
    ensures DotRename(dir + "/" + name) == dir + "/." + name
  {
    var raw := dir + "/";
    var p := raw + name;
    BaseStartOf(raw, name);
    assert p[..|raw|] == raw && p[|raw|..] == name;
    assert raw[|raw| - 2] != '/';
    assert !AllSlashes(raw);
    assert raw[..|raw| - 1] == dir;
    assert RStripSlashes(raw) == dir;
    assert dir + "/" + ("." + name) == dir + "/." + name;
  }
}

=== FILE: pyint.dfy ===
/**
  Python's `int(text)` (base 10) on text already stripped of surrounding
  whitespace, `str.isdigit()`, and the decimal rendering `str(n)` of a
  non-negative integer, restricted to the ASCII digits '0'..'9'.
 */
module PyInt {
  import opened Base

  predicate IsDigit(c: char) {
    '0' <= c <= '9'
  }

  predicate AllDigits(s: string) {
    forall k :: 0 <= k < |s| ==> IsDigit(s[k])
  }

  /** `s.isdigit()`: non-empty and made of digits only. */
  predicate IsDigits(s: string) {
    |s| > 0 && AllDigits(s)
  }

  function DigitValue(c: char): (d: nat)
    requires IsDigit(c)
    ensures d < 10
  {
    (c as int) - ('0' as int)
  }

  function DigitChar(d: nat): (c: char)
    requires d < 10
    ensures IsDigit(c) && DigitValue(c) == d
  {
    (('0' as int) + d) as char
  }

  /** The number a digit string denotes, most significant digit first. */
  function DecimalValue(s: string): nat
    requires AllDigits(s)
  {
    if |s| == 0 then 0 else 10 * DecimalValue(s[..|s| - 1]) + DigitValue(s[|s| - 1])
  }

  /**
    The digit part `int()` accepts: digits, with single underscores allowed
    between two digits (`1_000`), neither leading nor trailing.
   */
  predicate IsDigitGroup(s: string) {
    && |s| > 0 && IsDigit(s[0]) && IsDigit(s[|s| - 1])
    && (forall k :: 0 <= k < |s| ==> IsDigit(s[k]) || s[k] == '_')
    && (forall k :: 0 <= k < |s| - 1 ==> s[k] == '_' ==> s[k + 1] != '_')
  }

  /** The digits of `s` with every underscore removed. */
  function WithoutUnderscores(s: string): (r: string)
    ensures (forall k :: 0 <= k < |s| ==> IsDigit(s[k]) || s[k] == '_') ==> AllDigits(r)
    ensures |r| <= |s|
    ensures AllDigits(s) ==> r == s
  {
    if |s| == 0 then []
    else (if s[0] == '_' then [] else [s[0]]) + WithoutUnderscores(s[1..])
  }

  /**
    `int(s)` for an already stripped `s`: an optional sign followed by a digit
    group; `None` where Python raises `ValueError`.
   */
  function ParseInt(s: string): (r: Option<int>)
    ensures r.Some? ==> |s| > 0 && IsDigit(s[|s| - 1])
    ensures r.Some? && IsDigit(s[0]) ==> r.value >= 0
  {
    if |s| > 0 && (s[0] == '+' || s[0] == '-') then
      var body := s[1..];
      if IsDigitGroup(body) then
        var v: int := DecimalValue(WithoutUnderscores(body));
        Some(if s[0] == '-' then -v else v)
      else None
    else if IsDigitGroup(s) then Some(DecimalValue(WithoutUnderscores(s)))
    else None
  }

  /** `int()` accepts exactly an optional sign followed by a digit group. */
  lemma ParseIntAccepts(s: string)
    ensures ParseInt(s).Some? <==> IsDigitGroup(s) || (|s| > 0 && (s[0] == '+' || s[0] == '-') && IsDigitGroup(s[1..]))
  {
  }

  /** Every `isdigit()` string is accepted by `int()` with its plain decimal value. */
  lemma ParseDigits(s: string)
    requires IsDigits(s)
    ensures ParseInt(s) == Some(DecimalValue(s))
  {
  }

  /** A leading '+' changes nothing, unless another sign follows it. */
  lemma ParseIntPlus(t: string)
    requires t == [] || (t[0] != '+' && t[0] != '-')
    ensures ParseInt("+" + t) == ParseInt(t)
  {
    assert ("+" + t)[1..] == t;
  }

  /** A leading '-' negates the value of an unsigned text. */
  lemma ParseIntMinus(t: string)
    requires t == [] || (t[0] != '+' && t[0] != '-')
    ensures ParseInt("-" + t).Some? <==> ParseInt(t).Some?
    ensures ParseInt(t).Some? ==> ParseInt("-" + t).value == -ParseInt(t).value
  {
    assert ("-" + t)[1..] == t;
  }

  lemma {:induction false} WithoutUnderscoresConcat(x: string, y: string)
    ensures WithoutUnderscores(x + y) == WithoutUnderscores(x) + WithoutUnderscores(y)
  {
    if |x| == 0 {
      assert x + y == y;
    } else {
      var c: string := if x[0] == '_' then [] else [x[0]];
      calc {
        WithoutUnderscores(x + y);
        { assert (x + y)[0] == x[0] && (x + y)[1..] == x[1..] + y; }
        c + WithoutUnderscores(x[1..] + y);
        { WithoutUnderscoresConcat(x[1..], y); }
        c + (WithoutUnderscores(x[1..]) + WithoutUnderscores(y));
        (c + WithoutUnderscores(x[1..])) + WithoutUnderscores(y);
        WithoutUnderscores(x) + WithoutUnderscores(y);
      }
    }
  }

  lemma UnderscoreGroup(a: string, b: string)
    requires IsDigits(a) && IsDigits(b)
    ensures IsDigitGroup(a + "_" + b)
  {
    var s := a + "_" + b;
    assert s[0] == a[0] && s[|s| - 1] == b[|b| - 1];
    forall k | 0 <= k < |s|
      ensures IsDigit(s[k]) || s[k] == '_'
      ensures k < |s| - 1 && s[k] == '_' ==> s[k + 1] != '_'
    {
      if k < |a| {
        assert s[k] == a[k];
      } else if k > |a| {
        assert s[k] == b[k - |a| - 1];
      } else {
        assert s[k + 1] == b[0];
      }
    }
  }

  lemma UnderscoreDropped(a: string, b: string)
    requires IsDigits(a) && IsDigits(b)
    ensures forall k :: 0 <= k < |a + "_" + b| ==> IsDigit((a + "_" + b)[k]) || (a + "_" + b)[k] == '_'
    ensures WithoutUnderscores(a + "_" + b) == a + b
  {
    UnderscoreGroup(a, b);
    var x := a + "_";
    WithoutUnderscoresConcat(a, "_");
    assert WithoutUnderscores("_") == [];
    assert WithoutUnderscores(x) == a;
    WithoutUnderscoresConcat(x, b);
  }

  /** An underscore between two digit runs is ignored: `int("1_000") == int("1000")`. */
  lemma ParseIntUnderscore(a: string, b: string)
    requires IsDigits(a) && IsDigits(b)
    ensures ParseInt(a + "_" + b) == ParseInt(a + b)
  {
    var s := a + "_" + b;
    UnderscoreGroup(a, b);
    UnderscoreDropped(a, b);
    assert s[0] == a[0];
    assert ParseInt(s) == Some(DecimalValue(a + b));
    assert AllDigits(a + b) by {
      forall k | 0 <= k < |a + b|
        ensures IsDigit((a + b)[k])
      {
        if k < |a| { assert (a + b)[k] == a[k]; } else { assert (a + b)[k] == b[k - |a|]; }
      }
    }
    ParseDigits(a + b);
  }

  /** `str(n)` for a non-negative integer: its shortest decimal rendering. */
  function DecimalString(n: nat): (r: string)
    ensures IsDigits(r)
    ensures DecimalValue(r) == n
    ensures r[0] == '0' ==> n == 0
  {
    if n < 10 then [DigitChar(n)]
    else
      var r := DecimalString(n / 10) + [DigitChar(n % 10)];
      assert r[..|r| - 1] == DecimalString(n / 10);
      r
  }

  /** Appending a digit to a positive number appends its digit character to the rendering. */
  lemma DecimalStringDigit(n: nat, d: nat)
    requires 0 < n && d < 10
    ensures DecimalString(10 * n + d) == DecimalString(n) + [DigitChar(d)]
  {
    assert (10 * n + d) / 10 == n && (10 * n + d) % 10 == d;
  }

  /** Round trip: `int(str(n)) == n`, and `int("-" + str(n)) == -n`. */
  lemma ParseDecimalString(n: nat)
    ensures ParseInt(DecimalString(n)) == Some(n)
    ensures ParseInt("-" + DecimalString(n)) == Some(-(n as int))
  {
    var s := DecimalString(n);
    ParseDigits(s);
    assert ("-" + s)[1..] == s;
  }
}

=== FILE: pystr.dfy ===
/**
  The three Python `str` operations the loader relies on: `isspace` (per code
  point), `strip()` with no argument, and `split(sep)` with an explicit
  one-character separator, together with its inverse `sep.join(parts)`.
 */
module PyStr {

  /** `c.isspace()`: the code points that `str.strip()` removes. */
  predicate IsSpace(c: char) {
    var n := c as int;
    || n == 0x20
    || 0x09 <= n <= 0x0D
    || 0x1C <= n <= 0x1F
    || n == 0x85 || n == 0xA0 || n == 0x1680
    || 0x2000 <= n <= 0x200A
    || n == 0x2028 || n == 0x2029 || n == 0x202F || n == 0x205F || n == 0x3000
  }

  predicate AllSpace(s: string) {
    forall k :: 0 <= k < |s| ==> IsSpace(s[k])
  }

  /** Number of whitespace code points at the start of `s`. */
  function LeadingSpace(s: string): (n: nat)
    ensures n <= |s|
    ensures forall k :: 0 <= k < n ==> IsSpace(s[k])
    ensures n < |s| ==> !IsSpace(s[n])
  {
    if |s| > 0 && IsSpace(s[0]) then 1 + LeadingSpace(s[1..]) else 0
  }

  /** Number of whitespace code points at the end of `s`. */
  function TrailingSpace(s: string): (n: nat)
    ensures n <= |s|
    ensures forall k :: |s| - n <= k < |s| ==> IsSpace(s[k])
    ensures n < |s| ==> !IsSpace(s[|s| - n - 1])
  {
    if |s| > 0 && IsSpace(s[|s| - 1]) then
      var t := s[..|s| - 1];
      var m := TrailingSpace(t);
      assert forall k :: |t| - m <= k < |t| ==> s[k] == t[k];
      1 + m
    else 0
  }

  /**
    `s.strip()`: the infix of `s` left after removing leading and trailing
    whitespace. It starts where the leading whitespace ends, only whitespace
    follows it, and it neither starts nor ends with whitespace.
   */
  function Strip(s: string): (r: string)
    ensures LeadingSpace(s) + |r| <= |s|
    ensures r == s[LeadingSpace(s)..LeadingSpace(s) + |r|]
    ensures forall k :: LeadingSpace(s) + |r| <= k < |s| ==> IsSpace(s[k])
    ensures r == [] || (!IsSpace(r[0]) && !IsSpace(r[|r| - 1]))
  {
    var i, j := LeadingSpace(s), |s| - TrailingSpace(s);
    if i <= j then s[i..j] else []
  }

  lemma {:induction false} LeadingSpaceOf(pre: string, rest: string)
    requires AllSpace(pre)
    requires rest == [] || !IsSpace(rest[0])
    ensures LeadingSpace(pre + rest) == |pre|
  {
    if |pre| > 0 {
      assert (pre + rest)[1..] == pre[1..] + rest;
      LeadingSpaceOf(pre[1..], rest);
    } else {
      assert pre + rest == rest;
    }
  }

  lemma {:induction false} TrailingSpaceOf(rest: string, post: string)
    requires AllSpace(post)
    requires rest == [] || !IsSpace(rest[|rest| - 1])
    ensures TrailingSpace(rest + post) == |post|
  {
    if |post| > 0 {
      var x := rest + post;
      assert x[..|x| - 1] == rest + post[..|post| - 1];
      TrailingSpaceOf(rest, post[..|post| - 1]);
    } else {
      assert rest + post == rest;
    }
  }

  /** Surrounding whitespace of any amount is exactly what `strip()` removes. */
  lemma StripPadded(pre: string, s: string, post: string)
    requires AllSpace(pre) && AllSpace(post)
    requires s == [] || (!IsSpace(s[0]) && !IsSpace(s[|s| - 1]))
    ensures Strip(pre + s + post) == s
  {
    var x := pre + s + post;
    if s == [] {
      assert x == (pre + post) + [];
      LeadingSpaceOf(pre + post, []);
    } else {
      assert x == pre + (s + post);
      LeadingSpaceOf(pre, s + post);
      assert x == (pre + s) + post;
      TrailingSpaceOf(pre + s, post);
      assert x[|pre|..|x| - |post|] == s;
    }
  }

  /** Stripping a string that has no outer whitespace changes nothing. */
  lemma StripTrimmed(s: string)
    requires s == [] || (!IsSpace(s[0]) && !IsSpace(s[|s| - 1]))
    ensures Strip(s) == s
  {
    if s != [] {
      assert LeadingSpace(s) == 0 && TrailingSpace(s) == 0;
    }
    assert s[0..|s|] == s;
  }

  /** `strip()` is idempotent. */
  lemma StripIdempotent(s: string)
    ensures Strip(Strip(s)) == Strip(s)
  {
    StripTrimmed(Strip(s));
  }

  /** Number of occurrences of `c` in `s`. */
  function Occurrences(s: string, c: char): nat
  {
    if |s| == 0 then 0 else (if s[0] == c then 1 else 0) + Occurrences(s[1..], c)
  }

  lemma {:induction false} OccurrencesConcat(a: string, b: string, c: char)
    ensures Occurrences(a + b, c) == Occurrences(a, c) + Occurrences(b, c)
  {
    if |a| > 0 {
      assert (a + b)[1..] == a[1..] + b;
      OccurrencesConcat(a[1..], b, c);
    } else {
      assert a + b == b;
    }
  }

  /** Occurrences split across a prefix, an infix and a suffix. */
  lemma OccurrencesInfix(s: string, i: nat, j: nat, c: char)
    requires i <= j <= |s|
    ensures Occurrences(s, c) == Occurrences(s[..i], c) + Occurrences(s[i..j], c) + Occurrences(s[j..], c)
  {
    assert s == s[..i] + s[i..j] + s[j..];
    OccurrencesConcat(s[..i] + s[i..j], s[j..], c);
    OccurrencesConcat(s[..i], s[i..j], c);
  }

  /** A string holding `c` at some index has at least one occurrence of it. */
  lemma OccurrencesPositive(s: string, k: nat, c: char)
    requires k < |s| && s[k] == c
    ensures Occurrences(s, c) > 0
  {
    OccurrencesInfix(s, k, k + 1, c);
    assert s[k..k + 1][1..] == [];
  }

  lemma OccurrencesLast(s: string, c: char)
    requires |s| > 0 && s[|s| - 1] == c
    ensures Occurrences(s, c) == Occurrences(s[..|s| - 1], c) + 1
  {
    assert s == s[..|s| - 1] + [c];
    OccurrencesConcat(s[..|s| - 1], [c], c);
  }

  /** `strip()` removes a trailing whitespace code point, so it loses at least one occurrence of it. */
  lemma StripDropsTrailing(s: string, c: char)
    requires |s| > 0 && s[|s| - 1] == c && IsSpace(c)
    ensures Occurrences(Strip(s), c) < Occurrences(s, c)
  {
    var i, j := LeadingSpace(s), |s| - TrailingSpace(s);
    var tail := s[j..];
    assert j < |s|;
    assert tail[|tail| - 1] == c;
    OccurrencesLast(tail, c);
    if i <= j {
      OccurrencesInfix(s, i, j, c);
    } else {
      OccurrencesInfix(s, j, j, c);
    }
  }

  /** `strip()` never adds an occurrence. */
  lemma StripOccurrences(s: string, c: char)
    ensures Occurrences(Strip(s), c) <= Occurrences(s, c)
  {
    var a := LeadingSpace(s);
    OccurrencesInfix(s, a, a + |Strip(s)|, c);
  }

  /**
    When `strip()` keeps every occurrence of `c`, a code point `c` of `s`
    lies inside the stripped text: `lo` is where it starts, `hi` where it ends.
   */
  lemma StripKeeps(s: string, c: char, k: nat)
    requires k < |s| && s[k] == c
    requires Occurrences(Strip(s), c) == Occurrences(s, c)
    ensures LeadingSpace(s) <= k < LeadingSpace(s) + |Strip(s)|
  {
    var a := LeadingSpace(s);
    var b := a + |Strip(s)|;
    OccurrencesInfix(s, a, b, c);
    if k < a {
      assert s[..a][k] == c;
      OccurrencesPositive(s[..a], k, c);
    }
    if b <= k {
      assert s[b..][k - b] == c;
      OccurrencesPositive(s[b..], k - b, c);
    }
  }

  /** The code point at index `k` of the stripped text is the one at `LeadingSpace(s) + k` of `s`. */
  lemma StripAt(s: string, k: nat)
    requires k < |Strip(s)|
    ensures Strip(s)[k] == s[LeadingSpace(s) + k]
  {
    var a, t := LeadingSpace(s), Strip(s);
    assert t == s[a..a + |t|];
  }

  /**
    Two adjacent separators after a separator-free prefix make the second
    piece of the split empty, and `strip()` cannot change that unless it
    removes an occurrence of the separator.
   */
  lemma StripPairSplit(s: string, sep: char, p: nat)
    requires p + 1 < |s| && s[p] == sep && s[p + 1] == sep
    requires sep !in s[..p]
    requires Occurrences(Strip(s), sep) == Occurrences(s, sep)
    ensures |Split(Strip(s), sep)| > 1 && Split(Strip(s), sep)[1] == []
  {
    var t := Strip(s);
    var a := LeadingSpace(s);
    StripKeeps(s, sep, p);
    StripKeeps(s, sep, p + 1);
    var i := p - a;
    StripAt(s, i);
    StripAt(s, i + 1);
    forall k | 0 <= k < i
      ensures t[k] != sep
    {
      StripAt(s, k);
      assert s[..p][a + k] == s[a + k];
    }
    PairSplit(t, sep, i);
  }

  /** `sep.join(parts)`. */
  function Join(parts: seq<string>, sep: char): string
  {
    if |parts| == 0 then []
    else if |parts| == 1 then parts[0]
    else parts[0] + [sep] + Join(parts[1..], sep)
  }

  /**
    `s.split(sep)`: the pieces between consecutive separators. There is one
    more piece than there are separators, no piece contains the separator,
    and joining the pieces with the separator gives back `s`.
   */
  function Split(s: string, sep: char): (r: seq<string>)
    ensures |r| == Occurrences(s, sep) + 1
    ensures forall k :: 0 <= k < |r| ==> sep !in r[k]
    ensures Join(r, sep) == s
  {
    if |s| == 0 then [[]]
    else
      var rest := Split(s[1..], sep);
      if s[0] == sep then
        assert ([[]] + rest)[1..] == rest;
        [[]] + rest
      else
        var r := [[s[0]] + rest[0]] + rest[1..];
        assert r[1..] == rest[1..];
        assert |rest| > 1 ==> Join(rest, sep) == rest[0] + [sep] + Join(rest[1..], sep);
        r
  }

  /** A non-empty string that does not start with the separator starts its first piece. */
  lemma SplitFirst(s: string, sep: char)
    ensures Split(s, sep)[0] != [] <==> (s != [] && s[0] != sep)
    ensures s != [] && s[0] != sep ==> Split(s, sep)[0][0] == s[0]
  {
  }

  /** Splitting a separator-free string gives that string alone. */
  lemma {:induction false} SplitAbsent(s: string, sep: char)
    requires sep !in s
    ensures Split(s, sep) == [s]
  {
    if |s| > 0 {
      SplitAbsent(s[1..], sep);
      assert [s[0]] + s[1..] == s;
    }
  }

  /** A separator-free head followed by the separator splits off as the first piece. */
  lemma {:induction false} SplitCons(a: string, b: string, sep: char)
    requires sep !in a
    ensures Split(a + [sep] + b, sep) == [a] + Split(b, sep)
  {
    if |a| == 0 {
      assert a + [sep] + b == [sep] + b;
      assert ([sep] + b)[1..] == b;
    } else {
      var s := a + [sep] + b;
      assert s[0] == a[0] && s[1..] == a[1..] + [sep] + b;
      SplitCons(a[1..], b, sep);
      assert [a[0]] + a[1..] == a;
    }
  }

  /** Two adjacent separators after a separator-free prefix leave the second piece empty. */
  lemma PairSplit(t: string, sep: char, i: nat)
    requires i + 1 < |t| && t[i] == sep && t[i + 1] == sep
    requires forall k :: 0 <= k < i ==> t[k] != sep
    ensures |Split(t, sep)| > 1 && Split(t, sep)[1] == []
  {
    var x, y := t[..i], t[i + 1..];
    assert t == x + [sep] + y;
    assert sep !in x by {
      assert forall k :: 0 <= k < |x| ==> x[k] == t[k];
    }
    SplitCons(x, y, sep);
    assert y[0] == sep;
    SplitFirst(y, sep);
  }

  /** Round trip: splitting the join of separator-free pieces gives back the pieces. */
  lemma {:induction false} SplitJoin(parts: seq<string>, sep: char)
    requires |parts| > 0
    requires forall k :: 0 <= k < |parts| ==> sep !in parts[k]
    ensures Split(Join(parts, sep), sep) == parts
  {
    if |parts| == 1 {
      SplitAbsent(parts[0], sep);
    } else {
      SplitJoin(parts[1..], sep);
      SplitCons(parts[0], Join(parts[1..], sep), sep);
      assert [parts[0]] + parts[1..] == parts;
    }
  }

  /** The last code point of a join is the last code point of its last piece. */
  lemma {:induction false} JoinLast(parts: seq<string>, sep: char)
    requires |parts| > 0 && parts[|parts| - 1] != []
    ensures var j := Join(parts, sep); j != [] && j[|j| - 1] == parts[|parts| - 1][|parts[|parts| - 1]| - 1]
  {
    if |parts| > 1 {
      JoinLast(parts[1..], sep);
    }
  }

  lemma JoinThree(a: string, b: string, c: string, sep: char)
    ensures Join([a, b, c], sep) == a + [sep] + b + [sep] + c
  {
    assert Join([c], sep) == c;
    assert Join([b, c], sep) == b + [sep] + c by { assert [b, c][1..] == [c]; }
    assert [a, b, c][1..] == [b, c];
  }

  lemma JoinFive(a: string, b: string, c: string, d: string, e: string, sep: char)
    ensures Join([a, b, c, d, e], sep) == a + [sep] + b + [sep] + c + [sep] + d + [sep] + e
  {
    assert Join([e], sep) == e;
    var j2 := Join([d, e], sep);
    assert j2 == d + [sep] + e by { assert [d, e][1..] == [e]; }
    var j3 := Join([c, d, e], sep);
    assert j3 == c + [sep] + j2 by { assert [c, d, e][1..] == [d, e]; }
    var j4 := Join([b, c, d, e], sep);
    assert j4 == b + [sep] + j3 by { assert [b, c, d, e][1..] == [c, d, e]; }
    assert [a, b, c, d, e][1..] == [b, c, d, e];
  }
}

=== FILE: writer.dfy ===
/**
  `insert_appsinstalled`: the memcache key of a record and the decision
  whether storing it succeeded. The protobuf payload and the memcache client
  are outside the model; what the decision depends on is given as a `Store`.
 */
module Writer {
  import opened Parser

  /** A Python call that either returns a value or raises an exception to its caller. */
  datatype Outcome<+T> = Returned(value: T) | Raised

  /**
    The external behaviour a write depends on: whether building the protobuf
    payload (`UserApps` with `lat`, `lon`, `apps`) succeeds for a record, and
    whether creating the client for an address and calling `set` on a key
    completes without raising. What `set` returns plays no part.
   */
  datatype Store = Store(packs: Record -> bool, setCompletes: (string, string) -> bool)

  /** The memcache key: device type, a colon, device id. */
  function Key(rec: Record): (key: string)
    ensures |key| == |rec.devType| + 1 + |rec.devId|
    ensures key[..|rec.devType|] == rec.devType
    ensures key[|rec.devType|] == ':'
    ensures key[|rec.devType| + 1..] == rec.devId
  {
    rec.devType + ":" + rec.devId
  }

  /** Two records whose device types hold no colon share a key only if they share type and id. */
  lemma KeyInjective(a: Record, b: Record)
    requires ':' !in a.devType && ':' !in b.devType
    requires Key(a) == Key(b)
    ensures a.devType == b.devType && a.devId == b.devId
  {
    var ka, kb := Key(a), Key(b);
    assert |a.devType| == |b.devType| by {
      // the first colon of each key sits right after its device type
      assert ka[|a.devType|] == ':' && kb[|b.devType|] == ':';
      assert forall k :: 0 <= k < |a.devType| ==> ka[k] == a.devType[k];
      assert forall k :: 0 <= k < |b.devType| ==> kb[k] == b.devType[k];
    }
  }

  /** A colon inside the device type makes two different records share a key. */
  lemma KeyCollision(c: Coords, apps: seq<int>)
    ensures Key(Record("a:b", "c", c, apps)) == Key(Record("a", "b:c", c, apps))
  {
  }

  /**
    The outcome of `insert_appsinstalled(addr, rec, dry_run)`. Building the
    payload happens before the `try`, so a failure there raises to the
    caller. Inside the `try`, dry-run only logs and succeeds; otherwise the
    result is `True` exactly when client creation and `set` do not raise.
   */
  function Insert(addr: string, rec: Record, dryRun: bool, store: Store): (r: Outcome<bool>)
    ensures r.Raised? <==> !store.packs(rec)
    ensures r == Returned(true) <==> store.packs(rec) && (dryRun || store.setCompletes(addr, Key(rec)))
  {
    if !store.packs(rec) then Raised
    else if dryRun then Returned(true)
    else Returned(store.setCompletes(addr, Key(rec)))
  }

  /** A dry run never reaches the network: neither the address nor the client's behaviour matters. */
  lemma DryRunIgnoresNetwork(a1: string, a2: string, rec: Record, s1: Store, s2: Store)
    requires s1.packs(rec) == s2.packs(rec)
    ensures Insert(a1, rec, true, s1) == Insert(a2, rec, true, s2)
    ensures s1.packs(rec) ==> Insert(a1, rec, true, s1) == Returned(true)
  {
  }
}
